=== FILE: README.md ===
# HourlyChimeClock — a Dafny model of the hourly-chime core

HourlyChimeClock is a tray utility for Windows. Every 30 seconds it checks the
local time. At the top of each hour inside a configured window (07 to 22 by
default) it plays a chime, followed by a spoken announcement of the hour. A
shared-memory lock keeps a second copy of the program from starting.

This project models the sequential core of `main.py` as pure functions over
immutable records:

- `Settings` models `ConfigManager`. It covers the typed getters with their
  fallbacks, `set_value`, and the contents written when `config.ini` is
  missing. configparser stores option names in lower case, and the model does
  the same.
- `Player` models `ChimePlayer`. It covers the clip list `play` builds and the
  order of the calls `_play_sequence` makes on the pygame music mixer. That
  order is a trace of events (`Stop`, `Load`, `Start`, `AwaitIdle`). A small
  mixer model gives the trace a meaning: which clips are heard, in what order,
  and whether one clip cuts another short.
- `Guard` models `check_single_instance`. The operating system's named
  shared-memory segments are a set of names.
- `Scheduler` models `check_hourly_chime`. The state is `last_chimed_hour`,
  and each tick is its local `(hour, minute)`.
- `Tray` models the `TrayApp` state and commands: start-up, style selection,
  test play and the timer tick.
- `Text` models the conversions used along the way: `str()`, `int()`,
  `{:02d}`, and ASCII lower-casing.

Which files exist is a set of paths. The current hour is an input.

Some behaviour worth knowing. The model proves each point; where a point also
depends on behaviour outside the model, the point says so.

- A configuration value that is not an integer makes `get_int` raise. It does
  not fall back to the default. The window is read only on a tick that is due
  (minute 0, an hour not chimed yet), so a bad value raises only at those
  ticks (`Scheduler.MalformedStartHourRaises`; `Scheduler.MinuteGating` and
  `Scheduler.OncePerHour` show every other tick succeeds). The first such
  exception escapes the timer callback. Under PyQt5 that ends the program,
  so no later tick runs. That last step is not modelled.
- Clips that do not exist are dropped before playback starts. When none
  exists, the program only prints a message and leaves current audio alone
  (`Player.PlayIsHeardAsClipList`).
- A tick outside the window does not record the hour. The decision rule would
  therefore let a later tick in the same minute chime if the window were
  widened (`Scheduler.WidenedWindowCatchesUp`). The running program never
  widens it: `config.ini` is read once at start-up, and the only settings the
  program writes are `chimetype` and `AutoStart`. So `StartHour` and `EndHour`
  keep their start-up values for the life of the process
  (`Tray.SetChimeTypeKeepsWindow`).
- The state records the hour but not the day. With a one-hour window
  (`StartHour == EndHour`), the first chime is the last one ever
  (`Scheduler.SingleHourWindowFiresOnce`). The same happens to any hour when
  no other hour chimes before it comes round again.

## Model

| member | source | states |
|---|---|---|
| Settings.LoadConfig | main.py:30-40 | a missing config file is replaced by one that reads back, whatever the fallback, as window 7 to 22, Westminster chime and autostart on; a present file is used as read |
| Settings.DefaultsRead | main.py:31-37 | the default file reads back as window 7 to 22, Westminster chime and autostart on |
| Settings.GetStr | main.py:52-53 | the value stored under the lower-cased option name, or the fallback when the section or option is missing |
| Settings.GetInt | main.py:49-50 | the fallback when the option is missing; otherwise success exactly when the stored text parses as an integer, and then that integer |
| Settings.GetBool | main.py:46-47 | the fallback when the option is missing; otherwise success exactly when the stored text is one of configparser's boolean spellings, and then its value |
| Settings.MissingOptionFallsBack | main.py:46-53 | a missing option or missing section yields the caller's fallback from all three getters, without raising |
| Settings.EmptyIntRaises | main.py:49-50 | an empty or non-numeric stored value makes `get_int` fail rather than fall back |
| Settings.BooleanSpellings | main.py:46-47 | `get_bool` accepts its spellings in any letter case (`True`, `YES`, `Off`) and rejects the empty string and other words |
| Settings.MalformedIntRaises | main.py:49-50 | a stored value that is not an integer makes `get_int` fail instead of falling back |
| Settings.SetValue | main.py:55-57 | writing fails exactly when the configuration has no `[Settings]` section |
| Settings.ReadYourWrite | main.py:52-56 | a value written by `set_value` is returned by `get_str`, whatever the letter case of the option name |
| Settings.SetValueFrame | main.py:55-56 | `set_value` leaves every other option's value unchanged |
| Settings.GetIntOfWrittenInt | main.py:49-57 | an integer written as text is read back by `get_int` as the same integer |
| Settings.GetBoolOfWrittenFlag | main.py:46-57 | a flag written as lower-case `true`/`false` is read back by `get_bool` as the same flag |
| Text.ParseIntOfIntToString | main.py:49-56 | `int()` of `str(n)` is `n` for every integer |
| Text.ParseIntOfPad2 | main.py:103 | the `{:02d}` form is at least two characters and reads back as the same integer |
| Text.ParseIntRejects | main.py:49-50 | `int()` rejects the empty string, a bare sign, and text ending in a non-digit |
| Text.Pad2OfClockHour | main.py:103 | for hours 0 to 23 the padded form is exactly the tens digit then the units digit |
| Player.JoinPath | main.py:103 | the joined path is the directory then the file name, with a single backslash between them; the backslash is left out when the directory is empty, ends in `\` or `/`, or is a bare drive such as `C:` |
| Player.SpeechFile | main.py:103 | the announcement path for an hour starts with the speech directory and ends with that same hour's clip name |
| Player.SpeechNameOfClockHour | main.py:103 | for hours 0 to 23 the clip name is `hourly-speak-`, two digits, `.wav` (19 characters) |
| Player.SpeechNameInjective | main.py:103 | two different hours never share an announcement file name |
| Player.Clips | main.py:98-105 | the list has one entry per existing file (so at most 2); the chime comes first when it exists; the announcement comes last when an hour is given and its file exists; every entry exists |
| Player.Play | main.py:107-110 | an empty clip list produces only the "no audio file" message; otherwise playback begins with `Stop` |
| Player.SequenceTrace | main.py:132-135 | the trace has three calls per clip and opens with stop, load of the first clip, start |
| Player.FollowersPlayInOrder | main.py:137-141 | from any mixer state, the later clips are each heard once, in list order; no call stops or replaces a clip before it has finished; the last is left playing |
| Player.SequencePlaysEveryClip | main.py:132-141 | from any mixer state, even one still playing, the sequence is heard as exactly the clip list, in order; the opening stop cuts off earlier audio exactly when some was still playing (pre-emption); after it no clip is stopped or replaced before it has finished |
| Player.PlayIsHeardAsClipList | main.py:98-110 | `play` is heard as exactly the clip list, and only its opening stop may cut off earlier audio; with no clip nothing is cut and the mixer keeps its state |
| Guard.Create | main.py:200 | creation succeeds only for a name not yet held, and then adds exactly that name |
| Guard.CheckSingleInstance | main.py:196-200 | the check answers true iff the name was free and the OS did not fail; segments other than the lock name are untouched |
| Guard.HeldLockRefusesAll | main.py:197-198 | while the segment exists, every check answers false |
| Guard.AtMostOneInstance | main.py:196-200 | among any number of successive checks on one name at most one answers true, and it is the first when the name was free and its create did not fail |
| Guard.TwoChecks | main.py:196-200 | two checks of a free name answer true, then false |
| Scheduler.Decide | main.py:307-312 | a firing tick records its hour; a tick that does not fire leaves the state unchanged |
| Scheduler.MinuteGating | main.py:307 | at a minute other than 0 nothing fires and the state is unchanged, whatever the window, the state or the configuration |
| Scheduler.OncePerHour | main.py:307-312 | an hour equal to the last chimed hour never fires and its tick succeeds without change even with a malformed configuration; repeating a tick is idempotent and cannot fire twice |
| Scheduler.ReadWindow | main.py:308-309 | the window is the pair of values `get_int` reads for `StartHour` and `EndHour`; reading fails exactly when one of them fails, and a bad `StartHour` is the error reported |
| Scheduler.Tick | main.py:307-312 | a tick fails exactly when it is due and the window cannot be read; a tick that is not due changes nothing; with a readable window it is the decision on that window |
| Scheduler.InclusiveWindow | main.py:308-312 | at a due tick, firing and recording the hour both happen iff start ≤ hour ≤ end |
| Scheduler.DefaultWindowEdges | main.py:308-310 | with the default window, 6:00 and 23:00 never fire from any state, and 7:00 and 22:00 fire unless that hour already chimed |
| Scheduler.FirstTickFires | main.py:185 | from the start-up state −1, the first minute-0 tick of an in-window clock hour fires |
| Scheduler.TickReadsWindow | main.py:307-309 | with a readable configuration the tick is the decision on the window it reads; with no config file that window is 7 to 22 |
| Scheduler.MalformedStartHourRaises | main.py:308 | a due tick with a non-integer `StartHour` raises instead of chiming |
| Scheduler.ChimedHourStaysSilent | main.py:307 | once an hour has chimed, no later tick in that hour fires |
| Scheduler.AtMostOncePerHour | main.py:303-312 | any run of ticks within one hour fires at most once, even when the window changes between ticks |
| Scheduler.WidenedWindowCatchesUp | main.py:310-312 | the decision rule leaves the state alone at an out-of-window tick, so a wider window at a later tick of the same minute fires; the running program never changes the window (see `Tray.SetChimeTypeKeepsWindow`) |
| Scheduler.SingleHourWindowFiresOnce | main.py:307-312 | with a one-hour window, once that hour has chimed no later tick on any day fires |
| Tray.Launch | main.py:156-189 | start-up proceeds iff the lock name was free and the OS did not fail; a running app holds the configuration `load_config` produced and the given resources, starts with −1, and its player holds the chime that configuration selects |
| Tray.ChimeFileFor | main.py:255-260 | a stored `chimetype` of exactly `normal` selects the normal chime; any other value, or none, selects Westminster |
| Tray.FirstLaunchIsWestminster | main.py:178-184 | a first launch without a config file gives the player the Westminster chime |
| Tray.SetChimeType | main.py:248-251 | the command fails exactly when there is no `[Settings]` section; it never touches the scheduler state |
| Tray.SetChimeTypeKeepsWindow | main.py:248-249 | choosing a style writes only `chimetype`, so the chime window read afterwards is the one read before |
| Tray.SetChimeTypeSelects | main.py:248-260 | after the command the player holds the normal chime for `"normal"` and Westminster for any other value, and state coherence is kept |
| Tray.TestPlay | main.py:235 | test play leaves the whole application state unchanged |
| Tray.TestPlayKeepsNextChime | main.py:235 | after a test play at an hour, a due in-window tick of that hour still fires and records it |
| Tray.OnTick | main.py:303-312 | a tick never changes the configuration or the player; a tick with no mixer call leaves the state unchanged |
| Tray.OnTickKeepsCoherence | main.py:303-312 | a tick keeps the chime file, the player and the configuration in agreement |
| Tray.OnTickPlaysTheHour | main.py:307-312 | a firing tick is heard as the hour's clip list and records the hour; a tick that does not fire makes no call and changes nothing |

## Left out

- The tray icon, the menus and their labels, check marks and icons (`init_tray`, `update_chime_menu`, `update_autostart_icon`). These are user interface only.
- `AutoStartManager` and `toggle_autostart`. They read and write the Windows registry through `winreg`.
- Reading and writing `config.ini` (`config.read`, `save_config`), and configparser's file syntax and `%` interpolation. The parsed `[Settings]` section is a map.
- Python's `int()` accepts surrounding whitespace, `_` between digits and non-ASCII digits. `Text.ParseInt` accepts only an optional sign followed by ASCII digits.
- `str.lower()` on non-ASCII letters. `Text.Fold` lowers ASCII letters only.
- `os.path.join` is modelled for a directory and a relative name only. Drive-relative and UNC forms are left out.
- Real audio from pygame: decoding, `get_busy` polling and `pygame.time.wait(100)`. The whole wait loop is one `AwaitIdle` event, and only the order of calls is kept.
- `pygame.mixer.init()` raising at start-up (main.py:94, reached from main.py:184) when no audio device is available. `Tray.Launch` always returns a running app once the lock is acquired.
- A `pygame.error` raised while loading a file that exists but cannot be decoded. It would escape `play` before `last_chimed_hour` is set.
- The `QTimer` 30-second period and `time.localtime()`. Each tick is an input `(hour, minute)`.
- What PyQt does with an exception that escapes a timer callback. PyQt5 aborts the process, so a malformed window bound ends the program at its first due tick. The model reports the exception as a `Failure` and stops there.
- `QSharedMemory` semantics beyond a set of segment names, and races between processes. Release of the segment when the process exits is left out too.
- Path resolution (`get_base_path`, `_MEIPASS`, `sys.frozen`, `resource_path`). The resolved paths are the input `Resources`.
- The commented-out `winsound` player and one-second timer (main.py:113-129, main.py:315-327). They are not part of the program.

=== FILE: counting.dfy ===
/** Counting the true entries of a sequence of yes/no answers: how many
    checks acquired a lock, how many ticks chimed, how many clips exist. */
module Counting {

  function Count(b: bool): nat {
    if b then 1 else 0
  }

  function CountTrue(answers: seq<bool>): nat {
    if |answers| == 0 then 0 else Count(answers[0]) + CountTrue(answers[1..])
  }
}

=== FILE: guard.dfy ===
/** check_single_instance: the shared-memory lock that keeps a second copy of
    the program from running. The operating system's named segments are a set
    of names; an OS-level failure of create is an explicit input. */
module Guard {
  import opened Counting

  type Segments = set<string>

  /** The segment name the program claims. */
  const LockName := "TrayAppInstanceLock"

  /** The answer of one check and the segments that exist afterwards. */
  datatype Claim = Claim(acquired: bool, segments: Segments)

  /** attach succeeds exactly when a segment of that name exists. */
  function Attach(segments: Segments, name: string): bool {
    name in segments
  }

  /** create(1): makes the segment unless it already exists or the OS fails. */
  function Create(segments: Segments, name: string, osFault: bool): (c: Claim)
    ensures c.acquired ==> name !in segments && c.segments == segments + {name}
    ensures !c.acquired ==> c.segments == segments
  {
    if name in segments || osFault then Claim(false, segments)
    else Claim(true, segments + {name})
  }

  /** False when attach succeeds (another instance holds the segment);
      otherwise whatever create answers. */
  function CheckSingleInstance(segments: Segments, name: string, osFault: bool): (c: Claim)
    ensures c.acquired <==> name !in segments && !osFault
    ensures name in c.segments <==> name in segments || c.acquired
    ensures c.segments - {name} == segments - {name}
  {
    if Attach(segments, name) then Claim(false, segments)
    else Create(segments, name, osFault)
  }

  /** The answers of successive checks on one name, each seeing the segments
      the earlier ones left; faults[i] is whether the OS fails the i-th create. */
  function CheckAll(segments: Segments, name: string, faults: seq<bool>): (r: seq<bool>)
    ensures |r| == |faults|
    decreases |faults|
  {
    if |faults| == 0 then []
    else
      var c := CheckSingleInstance(segments, name, faults[0]);
      [c.acquired] + CheckAll(c.segments, name, faults[1..])
  }

  /** Once the segment exists, every later check answers false. */
  lemma {:induction false} HeldLockRefusesAll(segments: Segments, name: string, faults: seq<bool>)
    requires name in segments
    ensures CountTrue(CheckAll(segments, name, faults)) == 0
    decreases |faults|
  {
    if |faults| != 0 {
      HeldLockRefusesAll(segments, name, faults[1..]);
    }
  }

  /** However many checks run one after another on the same name, at most one
      answers true, and when the name was free and the first create does not
      fault, that one is the first. */
  lemma {:induction false} AtMostOneInstance(segments: Segments, name: string, faults: seq<bool>)
    ensures CountTrue(CheckAll(segments, name, faults)) <= 1
    ensures 0 < |faults| && name !in segments && !faults[0] ==>
              CheckAll(segments, name, faults)[0]
              && CountTrue(CheckAll(segments, name, faults)) == 1
    decreases |faults|
  {
    if |faults| != 0 {
      var c := CheckSingleInstance(segments, name, faults[0]);
      if c.acquired {
        HeldLockRefusesAll(c.segments, name, faults[1..]);
      } else {
        AtMostOneInstance(c.segments, name, faults[1..]);
      }
      assert CheckAll(segments, name, faults)[1..] == CheckAll(c.segments, name, faults[1..]);
    }
  }

  /** Two checks of a free name with no OS fault answer true, then false. */
  lemma TwoChecks(segments: Segments, name: string)
    requires name !in segments
    ensures CheckSingleInstance(segments, name, false).acquired
    ensures !CheckSingleInstance(CheckSingleInstance(segments, name, false).segments, name, false).acquired
  {
  }
}

=== FILE: player.dfy ===
/** ChimePlayer: which clips a chime plays and the order in which they reach
    the music mixer. File existence is a set of existing paths, and playback is
    a trace of mixer calls, interpreted by a small mixer model. */
module Player {
  import opened Wrappers
  import opened Text
  import opened Counting

  type Path = string

  /** The player's configuration: the primary chime file and the directory of
      the hour-announcement clips. */
  datatype Player = Player(chimeFile: Path, speechDir: Path)

  /** One call the player makes on the music mixer, or its "no audio file" message.
      AwaitIdle stands for the whole get_busy polling loop. */
  datatype Event = Stop | Load(clip: Path) | Start | AwaitIdle | NothingToPlay

  /** Windows path join of a directory and a relative file name: a backslash is
      inserted unless the directory is empty, already ends in a separator, or
      is a bare drive such as `C:`. */
  function JoinPath(dir: Path, name: string): (p: Path)
    ensures |p| >= |dir| + |name|
    ensures p[..|dir|] == dir && p[|p| - |name|..] == name
    ensures p == dir + name || p == dir + "\\" + name
    ensures 0 < |dir| && dir[|dir| - 1] in {'\\', '/'} ==> p == dir + name
    ensures |dir| == 2 && dir[1] == ':' ==> p == dir + name
    ensures 0 < |dir| && dir[|dir| - 1] !in {'\\', '/', ':'} ==> p == dir + "\\" + name
  {
    var bareDrive := |dir| == 2 && dir[1] == ':';
    if 0 < |dir| && dir[|dir| - 1] !in {'\\', '/'} && !bareDrive then dir + "\\" + name else dir + name
  }

  /** The announcement clip's file name for an hour. */
  function SpeechName(hour: int): string {
    "hourly-speak-" + Pad2(hour) + ".wav"
  }

  /** The announcement clip for an hour: that hour's clip name inside the
      speech directory. */
  function SpeechFile(p: Player, hour: int): (f: Path)
    ensures |f| >= |p.speechDir| + |SpeechName(hour)|
    ensures f[..|p.speechDir|] == p.speechDir
    ensures f[|f| - |SpeechName(hour)|..] == SpeechName(hour)
  {
    JoinPath(p.speechDir, SpeechName(hour))
  }

  /** The clip list play builds: the chime file when it exists, then the
      announcement clip when an hour is given and its file exists. */
  function Clips(p: Player, hour: Option<int>, existing: set<Path>): (r: seq<Path>)
    ensures |r| == Count(p.chimeFile in existing)
                   + Count(hour.Some? && SpeechFile(p, hour.value) in existing)
    ensures p.chimeFile in existing ==> r[0] == p.chimeFile
    ensures hour.Some? && SpeechFile(p, hour.value) in existing ==> r[|r| - 1] == SpeechFile(p, hour.value)
    ensures forall i :: 0 <= i < |r| ==> r[i] in existing
  {
    var chime := if p.chimeFile in existing then [p.chimeFile] else [];
    var speech := if hour.Some? && SpeechFile(p, hour.value) in existing
                  then [SpeechFile(p, hour.value)] else [];
    chime + speech
  }

  /** The calls made for the clips after the first: wait until the mixer is
      idle, then load and start the next clip. */
  function Followers(rest: seq<Path>): (t: seq<Event>)
    ensures |t| == 3 * |rest|
    ensures 0 < |rest| ==> t[0] == AwaitIdle && t[1] == Load(rest[0])
  {
    if |rest| == 0 then []
    else [AwaitIdle, Load(rest[0]), Start] + Followers(rest[1..])
  }

  /** _play_sequence: stop what is playing, load and start the first clip,
      then the remaining clips each after the mixer has gone idle. */
  function SequenceTrace(clips: seq<Path>): (t: seq<Event>)
    requires 0 < |clips|
    ensures |t| == 3 * |clips|
    ensures t[0] == Stop && t[1] == Load(clips[0]) && t[2] == Start
  {
    [Stop, Load(clips[0]), Start] + Followers(clips[1..])
  }

  /** play: the sequence of the clips that exist, or only the message when none does. */
  function Play(p: Player, hour: Option<int>, existing: set<Path>): (t: seq<Event>)
    ensures Clips(p, hour, existing) == [] <==> t == [NothingToPlay]
    ensures 0 < |t| && (Clips(p, hour, existing) != [] ==> t[0] == Stop)
  {
    var clips := Clips(p, hour, existing);
    if |clips| == 0 then [NothingToPlay] else SequenceTrace(clips)
  }

  // ---------------------------------------------------------------------------
  // Mixer model

  /** The music mixer: the loaded clip and whether it is audibly playing. */
  datatype Mixer = Mixer(loaded: Option<Path>, busy: bool)

  /** Effect of one call. Loading replaces (and so silences) the current
      music; AwaitIdle returns once the current clip has finished. */
  function Apply(m: Mixer, e: Event): Mixer {
    match e
    case Stop => m.(busy := false)
    case Load(c) => Mixer(Some(c), false)
    case Start => m.(busy := m.loaded.Some?)
    case AwaitIdle => m.(busy := false)
    case NothingToPlay => m
  }

  /** The clip that becomes audible through this call, if any. */
  function Heard(m: Mixer, e: Event): seq<Path> {
    if e.Start? && m.loaded.Some? then [m.loaded.value] else []
  }

  /** A clip is cut off when it is stopped, or another is loaded, while it
      is still playing. */
  predicate CutsOff(m: Mixer, e: Event) {
    (e.Stop? || e.Load?) && m.busy
  }

  /** The outcome of a trace: final mixer state, clips heard in order, and
      whether some call of the trace cut off a clip before it had finished. */
  datatype Run = Run(final: Mixer, heard: seq<Path>, cut: bool)

  function Exec(m: Mixer, t: seq<Event>): Run
    decreases |t|
  {
    if |t| == 0 then Run(m, [], false)
    else
      var r := Exec(Apply(m, t[0]), t[1..]);
      Run(r.final, Heard(m, t[0]) + r.heard, CutsOff(m, t[0]) || r.cut)
  }

  /** Running one call and then the rest of a trace. */
  lemma ExecCons(m: Mixer, e: Event, t: seq<Event>)
    ensures Exec(m, [e] + t)
            == Run(Exec(Apply(m, e), t).final, Heard(m, e) + Exec(Apply(m, e), t).heard,
                   CutsOff(m, e) || Exec(Apply(m, e), t).cut)
  {
    assert ([e] + t)[1..] == t;
  }

  /** Whatever the mixer was doing, the later clips play one after another,
      each exactly once and in list order, and no call stops or replaces a
      clip before it has finished. */
  lemma {:induction false} FollowersPlayInOrder(m: Mixer, rest: seq<Path>)
    ensures Exec(m, Followers(rest)).heard == rest
    ensures !Exec(m, Followers(rest)).cut
    ensures |rest| == 0 ==> Exec(m, Followers(rest)).final == m
    ensures 0 < |rest| ==> Exec(m, Followers(rest)).final == Mixer(Some(rest[|rest| - 1]), true)
    decreases |rest|
  {
    if |rest| != 0 {
      var m1 := Apply(m, AwaitIdle);
      var m2 := Apply(m1, Load(rest[0]));
      var m3 := Apply(m2, Start);
      var tail := Followers(rest[1..]);
      assert Followers(rest) == [AwaitIdle] + ([Load(rest[0])] + ([Start] + tail));
      FollowersPlayInOrder(m3, rest[1..]);
      ExecCons(m2, Start, tail);
      ExecCons(m1, Load(rest[0]), [Start] + tail);
      ExecCons(m, AwaitIdle, [Load(rest[0])] + ([Start] + tail));
      assert [rest[0]] + rest[1..] == rest;
      if |rest| > 1 {
        assert rest[1..][|rest[1..]| - 1] == rest[|rest| - 1];
      }
    }
  }

  /** Playing a sequence pre-empts whatever the mixer was playing with its
      opening stop, which cuts off a clip exactly when one was still playing;
      after that every clip of the list is heard exactly once, in
      list order, none stopped or replaced before it has finished, and the
      last one is left playing. */
  lemma SequencePlaysEveryClip(m: Mixer, clips: seq<Path>)
    requires 0 < |clips|
    ensures Exec(m, SequenceTrace(clips)).heard == clips
    ensures !Exec(Apply(m, Stop), SequenceTrace(clips)[1..]).cut
    ensures Exec(m, SequenceTrace(clips)).cut <==> m.busy
    ensures Exec(m, SequenceTrace(clips)).final == Mixer(Some(clips[|clips| - 1]), true)
  {
    var m1 := Apply(m, Stop);
    var m2 := Apply(m1, Load(clips[0]));
    var m3 := Apply(m2, Start);
    var tail := Followers(clips[1..]);
    assert SequenceTrace(clips) == [Stop] + ([Load(clips[0])] + ([Start] + tail));
    assert SequenceTrace(clips)[1..] == [Load(clips[0])] + ([Start] + tail);
    FollowersPlayInOrder(m3, clips[1..]);
    ExecCons(m2, Start, tail);
    ExecCons(m1, Load(clips[0]), [Start] + tail);
    ExecCons(m, Stop, [Load(clips[0])] + ([Start] + tail));
    assert [clips[0]] + clips[1..] == clips;
  }

  /** play is heard as exactly its clip list, and only its opening stop may
      cut off what was playing before; with no clip it leaves the mixer alone
      (whatever is playing keeps playing). */
  lemma PlayIsHeardAsClipList(m: Mixer, p: Player, hour: Option<int>, existing: set<Path>)
    ensures Exec(m, Play(p, hour, existing)).heard == Clips(p, hour, existing)
    ensures Clips(p, hour, existing) != [] ==>
              !Exec(Apply(m, Stop), Play(p, hour, existing)[1..]).cut
    ensures Clips(p, hour, existing) == [] ==>
              !Exec(m, Play(p, hour, existing)).cut && Exec(m, Play(p, hour, existing)).final == m
  {
    var clips := Clips(p, hour, existing);
    if |clips| != 0 {
      SequencePlaysEveryClip(m, clips);
    } else {
      assert Play(p, hour, existing)[1..] == [];
    }
  }

  /** For a clock hour the announcement is "hourly-speak-", two digits, ".wav". */
  lemma SpeechNameOfClockHour(hour: int)
    requires 0 <= hour <= 23
    ensures SpeechName(hour) == "hourly-speak-" + [DigitChar(hour / 10), DigitChar(hour % 10)] + ".wav"
    ensures |SpeechName(hour)| == 19
  {
  }

  /** Different hours never share an announcement clip. */
  lemma SpeechNameInjective(a: int, b: int)
    requires SpeechName(a) == SpeechName(b)
    ensures a == b
  {
    var s := SpeechName(a);
    assert s[13..|s| - 4] == Pad2(a);
    assert SpeechName(b)[13..|SpeechName(b)| - 4] == Pad2(b);
    ParseIntOfPad2(a);
    ParseIntOfPad2(b);
  }
}

=== FILE: scheduler.dfy ===
/** check_hourly_chime: the decision taken on every timer tick. The tick's
    local hour and minute are inputs; the chime window is read from the
    configuration, and the only state is the last hour that chimed. */
module Scheduler {
  import opened Wrappers
  import opened Settings
  import opened Counting

  /** The configured chime window; both bounds are inclusive. Nothing orders
      or bounds them: a window whose start is after its end never chimes. */
  datatype Window = Window(startHour: int, endHour: int)

  const DefaultStartHour := 7
  const DefaultEndHour := 22

  /** The scheduler's state: last_chimed_hour, -1 at start-up. */
  datatype Chimer = Chimer(lastChimedHour: int)

  const Initial := Chimer(-1)

  /** Whether this tick chimes, and the state after it. */
  datatype Decision = Decision(fire: bool, next: Chimer)

  predicate InWindow(w: Window, hour: int) {
    w.startHour <= hour <= w.endHour
  }

  /** Only the first minute of an hour that has not chimed yet is considered. */
  predicate Due(s: Chimer, hour: int, minute: int) {
    minute == 0 && hour != s.lastChimedHour
  }

  /** One tick with a known window. */
  function Decide(s: Chimer, w: Window, hour: int, minute: int): (d: Decision)
    ensures d.fire ==> d.next == Chimer(hour)
    ensures !d.fire ==> d.next == s
  {
    if Due(s, hour, minute) && InWindow(w, hour) then Decision(true, Chimer(hour))
    else Decision(false, s)
  }

  /** The window as get_int reads it, with fallbacks 7 and 22; StartHour is read first. */
  function ReadWindow(c: Config): (r: Result<Window, SettingsError>)
    ensures r.Success? <==> GetInt(c, "StartHour", 7).Success? && GetInt(c, "EndHour", 22).Success?
    ensures r.Success? ==>
              r.value == Window(GetInt(c, "StartHour", 7).value, GetInt(c, "EndHour", 22).value)
    ensures GetInt(c, "StartHour", 7).Failure? ==> r == Failure(GetInt(c, "StartHour", 7).error)
  {
    match GetInt(c, "StartHour", DefaultStartHour)
    case Failure(e) => Failure(e)
    case Success(start) =>
      match GetInt(c, "EndHour", DefaultEndHour)
      case Failure(e) => Failure(e)
      case Success(end) => Success(Window(start, end))
  }

  /** One tick as the program runs it: the window is read only once the tick
      is due, so a malformed bound can raise only then. */
  function Tick(s: Chimer, c: Config, hour: int, minute: int): (r: Result<Decision, SettingsError>)
    ensures r.Failure? <==> Due(s, hour, minute) && ReadWindow(c).Failure?
    ensures !Due(s, hour, minute) ==> r == Success(Decision(false, s))
    ensures ReadWindow(c).Success? ==> r == Success(Decide(s, ReadWindow(c).value, hour, minute))
  {
    if Due(s, hour, minute) then
      match ReadWindow(c)
      case Failure(e) => Failure(e)
      case Success(w) => Success(Decide(s, w, hour, minute))
    else Success(Decision(false, s))
  }

  /** Off the top of the hour nothing plays and nothing changes, whatever the
      window, the state, or even a malformed configuration. */
  lemma MinuteGating(s: Chimer, c: Config, w: Window, hour: int, minute: int)
    requires minute != 0
    ensures Decide(s, w, hour, minute) == Decision(false, s)
    ensures Tick(s, c, hour, minute) == Success(Decision(false, s))
  {
  }

  /** An hour that has already chimed does not chime again, not even when the
      configuration is malformed, and repeating a tick changes nothing more
      than the tick did once. */
  lemma OncePerHour(s: Chimer, c: Config, w: Window, hour: int, minute: int)
    ensures hour == s.lastChimedHour ==> !Decide(s, w, hour, minute).fire
    ensures hour == s.lastChimedHour ==> Tick(s, c, hour, minute) == Success(Decision(false, s))
    ensures Decide(Decide(s, w, hour, minute).next, w, hour, minute).next
            == Decide(s, w, hour, minute).next
    ensures !Decide(Decide(s, w, hour, minute).next, w, hour, minute).fire
            || !Decide(s, w, hour, minute).fire
  {
  }

  /** At a due tick the chime plays exactly when the hour lies in the window,
      bounds included, and the state records the hour exactly then. */
  lemma InclusiveWindow(s: Chimer, w: Window, hour: int)
    requires hour != s.lastChimedHour
    ensures Decide(s, w, hour, 0).fire <==> w.startHour <= hour <= w.endHour
    ensures Decide(s, w, hour, 0).next.lastChimedHour == hour <==> w.startHour <= hour <= w.endHour
  {
  }

  /** With the default window, 7:00 and 22:00 chime, 6:00 and 23:00 do not. */
  lemma DefaultWindowEdges(s: Chimer)
    requires s.lastChimedHour !in {7, 22}
    ensures !Decide(s, Window(DefaultStartHour, DefaultEndHour), 6, 0).fire
    ensures Decide(s, Window(DefaultStartHour, DefaultEndHour), 7, 0).fire
    ensures Decide(s, Window(DefaultStartHour, DefaultEndHour), 22, 0).fire
    ensures !Decide(s, Window(DefaultStartHour, DefaultEndHour), 23, 0).fire
  {
  }

  /** From start-up, the first due tick of a clock hour inside the window chimes. */
  lemma FirstTickFires(w: Window, hour: int)
    requires 0 <= hour <= 23 && InWindow(w, hour)
    ensures Decide(Initial, w, hour, 0) == Decision(true, Chimer(hour))
  {
  }

  /** With a readable configuration the program's tick is the decision on
      the window it reads; with no configuration file that window is 7 to 22. */
  lemma TickReadsWindow(s: Chimer, c: Config, hour: int, minute: int)
    requires ReadWindow(c).Success?
    ensures Tick(s, c, hour, minute) == Success(Decide(s, ReadWindow(c).value, hour, minute))
    ensures ReadWindow(LoadConfig(None)) == Success(Window(7, 22))
  {
    DefaultsRead();
  }

  /** A due tick whose StartHour is not an integer raises: nothing plays and
      the state is not updated. */
  lemma MalformedStartHourRaises(s: Chimer, c: Config, hour: int)
    requires hour != s.lastChimedHour
    requires Lookup(c, "StartHour").Some? && Text.ParseInt(Lookup(c, "StartHour").value).None?
    ensures Tick(s, c, hour, 0).Failure?
  {
  }

  // ---------------------------------------------------------------------------
  // Many ticks

  /** One tick of a run: the window read at that tick and the local time. */
  datatype Moment = Moment(window: Window, hour: int, minute: int)

  /** Which ticks of a run chime, from a starting state. */
  function Fires(s: Chimer, ticks: seq<Moment>): (r: seq<bool>)
    ensures |r| == |ticks|
    decreases |ticks|
  {
    if |ticks| == 0 then []
    else
      var d := Decide(s, ticks[0].window, ticks[0].hour, ticks[0].minute);
      [d.fire] + Fires(d.next, ticks[1..])
  }

  /** Once an hour has chimed, no further tick in that hour chimes. */
  lemma {:induction false} ChimedHourStaysSilent(s: Chimer, hour: int, ticks: seq<Moment>)
    requires s.lastChimedHour == hour
    requires forall i :: 0 <= i < |ticks| ==> ticks[i].hour == hour
    ensures CountTrue(Fires(s, ticks)) == 0
    decreases |ticks|
  {
    if |ticks| != 0 {
      ChimedHourStaysSilent(s, hour, ticks[1..]);
    }
  }

  /** Any run of ticks within one hour chimes at most once, even if the window
      changes between ticks. */
  lemma {:induction false} AtMostOncePerHour(s: Chimer, hour: int, ticks: seq<Moment>)
    requires forall i :: 0 <= i < |ticks| ==> ticks[i].hour == hour
    ensures CountTrue(Fires(s, ticks)) <= 1
    decreases |ticks|
  {
    if |ticks| != 0 {
      var d := Decide(s, ticks[0].window, ticks[0].hour, ticks[0].minute);
      if d.fire {
        ChimedHourStaysSilent(d.next, hour, ticks[1..]);
      } else {
        AtMostOncePerHour(d.next, hour, ticks[1..]);
      }
    }
  }

  /** Because an out-of-window tick leaves the state alone, widening the window
      within the same minute lets a later tick of that minute chime. */
  lemma WidenedWindowCatchesUp(s: Chimer, narrow: Window, wide: Window, hour: int)
    requires hour != s.lastChimedHour && !InWindow(narrow, hour) && InWindow(wide, hour)
    ensures Fires(s, [Moment(narrow, hour, 0), Moment(wide, hour, 0)]) == [false, true]
  {
  }

  /** The state keeps only the hour, not the day: with a one-hour window, once
      that hour has chimed no later tick of any day ever chimes again. */
  lemma {:induction false} SingleHourWindowFiresOnce(hour: int, ticks: seq<Moment>)
    requires forall i :: 0 <= i < |ticks| ==> ticks[i].window == Window(hour, hour)
    ensures CountTrue(Fires(Chimer(hour), ticks)) == 0
    decreases |ticks|
  {
    if |ticks| != 0 {
      assert !Decide(Chimer(hour), ticks[0].window, ticks[0].hour, ticks[0].minute).fire;
      SingleHourWindowFiresOnce(hour, ticks[1..]);
    }
  }
}

=== FILE: settings.dfy ===
/** ConfigManager: the typed getters over the [Settings] section of config.ini,
    with their fallback defaults, and set_value. Reading and writing the file
    itself is left out; the parsed file is a value of type Config. */
module Settings {
  import opened Wrappers
  import opened Text

  /** The parsed configuration: the [Settings] section when the file has one.
      Option names are stored folded to lower case, as configparser stores them. */
  datatype Config = Config(section: Option<map<string, string>>)

  /** The exceptions the getters and the setter raise. */
  datatype SettingsError =
    | NoSection
    | NotAnInt(key: string, value: string)
    | NotABool(key: string, value: string)

  /** The contents load_config writes when config.ini does not exist. */
  const Defaults: Config :=
    Config(Some(map["autostart" := "true", "starthour" := "7",
                    "endhour" := "22", "chimetype" := "westminster"]))

  /** load_config: an absent file is replaced by one whose settings read back,
      whatever fallback the caller gives, as autostart on, the window 7 to 22
      and the Westminster chime; a present file is used as read. */
  function LoadConfig(file: Option<Config>): (c: Config)
    ensures file.None? ==> c.section.Some?
    ensures file.None? ==> forall d: int :: GetInt(c, "StartHour", d) == Success(7)
    ensures file.None? ==> forall d: int :: GetInt(c, "EndHour", d) == Success(22)
    ensures file.None? ==> forall d: string :: GetStr(c, "ChimeType", d) == "westminster"
    ensures file.None? ==> forall d: bool :: GetBool(c, "AutoStart", d) == Success(true)
    ensures file.Some? ==> c == file.value
  {
    match file
    case None =>
      assert Fold("StartHour") == "starthour";
      assert Fold("EndHour") == "endhour";
      assert Fold("ChimeType") == "chimetype";
      assert Fold("AutoStart") == "autostart";
      assert Fold("true") == "true";
      assert ParseInt("7") == Some(7);
      assert ParseInt("22") == Some(22) by {
        assert "22"[..1] == "2";
      }
      Defaults
    case Some(read) => read
  }

  /** The raw value stored under an option name, if any. */
  function Lookup(c: Config, key: string): Option<string> {
    match c.section
    case None => None
    case Some(m) => if Fold(key) in m then Some(m[Fold(key)]) else None
  }

  /** get_str: the stored value, or the fallback when the section or option is missing. */
  function GetStr(c: Config, key: string, default: string): (r: string)
    ensures c.section.Some? && Fold(key) in c.section.value ==> r == c.section.value[Fold(key)]
    ensures !(c.section.Some? && Fold(key) in c.section.value) ==> r == default
  {
    match Lookup(c, key)
    case None => default
    case Some(v) => v
  }

  /** get_int: the fallback when the section or option is missing; otherwise
      int() of the stored value, which raises ValueError when it is not an integer. */
  function GetInt(c: Config, key: string, default: int): (r: Result<int, SettingsError>)
    ensures Lookup(c, key).None? ==> r == Success(default)
    ensures Lookup(c, key).Some? ==>
              (r.Success? <==> ParseInt(Lookup(c, key).value).Some?)
              && (r.Success? ==> ParseInt(Lookup(c, key).value) == Some(r.value))
  {
    match Lookup(c, key)
    case None => Success(default)
    case Some(v) =>
      match ParseInt(v)
      case None => Failure(NotAnInt(Fold(key), v))
      case Some(n) => Success(n)
  }

  /** configparser's accepted boolean spellings, compared after lower-casing. */
  function BooleanState(v: string): Option<bool> {
    var w := Fold(v);
    if w == "1" || w == "yes" || w == "true" || w == "on" then Some(true)
    else if w == "0" || w == "no" || w == "false" || w == "off" then Some(false)
    else None
  }

  /** get_bool: the fallback when missing; otherwise the stored spelling, or ValueError. */
  function GetBool(c: Config, key: string, default: bool): (r: Result<bool, SettingsError>)
    ensures Lookup(c, key).None? ==> r == Success(default)
    ensures Lookup(c, key).Some? ==>
              (r.Success? <==> BooleanState(Lookup(c, key).value).Some?)
              && (r.Success? ==> BooleanState(Lookup(c, key).value) == Some(r.value))
  {
    match Lookup(c, key)
    case None => Success(default)
    case Some(v) =>
      match BooleanState(v)
      case None => Failure(NotABool(Fold(key), v))
      case Some(b) => Success(b)
  }

  /** set_value: store the value under the folded name; without a [Settings]
      section configparser raises NoSectionError. */
  function SetValue(c: Config, key: string, value: string): (r: Result<Config, SettingsError>)
    ensures r.Failure? <==> c.section.None?
    ensures r.Success? ==> r.value.section.Some?
  {
    match c.section
    case None => Failure(NoSection)
    case Some(m) => Success(Config(Some(m[Fold(key) := value])))
  }

  /** A value written by set_value is what get_str then returns, whatever the
      letter case used to write or to read the name. */
  lemma ReadYourWrite(c: Config, key: string, key': string, value: string, default: string)
    requires c.section.Some?
    requires Fold(key) == Fold(key')
    ensures SetValue(c, key, value).Success?
    ensures GetStr(SetValue(c, key, value).value, key', default) == value
  {
  }

  /** set_value leaves every other option as it was. */
  lemma SetValueFrame(c: Config, key: string, other: string, value: string, default: string)
    requires c.section.Some?
    requires Fold(key) != Fold(other)
    ensures GetStr(SetValue(c, key, value).value, other, default) == GetStr(c, other, default)
  {
  }

  /** An integer written as text by set_value is read back by get_int. */
  lemma GetIntOfWrittenInt(c: Config, key: string, n: int, default: int)
    requires c.section.Some?
    ensures GetInt(SetValue(c, key, IntToString(n)).value, key, default) == Success(n)
  {
  }

  /** An empty or non-numeric stored value makes get_int raise, not fall back. */
  lemma EmptyIntRaises(c: Config, key: string, default: int)
    requires Lookup(c, key) == Some("") || Lookup(c, key) == Some("seven")
    ensures GetInt(c, key, default).Failure?
  {
  }

  /** getboolean compares after lower-casing: "True", "YES", "Off" are accepted,
      anything outside the eight spellings is rejected. */
  lemma BooleanSpellings()
    ensures BooleanState("True") == Some(true)
    ensures BooleanState("YES") == Some(true)
    ensures BooleanState("Off") == Some(false)
    ensures BooleanState("") == None
    ensures BooleanState("maybe") == None
  {
    assert Fold("True") == "true";
    assert Fold("YES") == "yes";
    assert Fold("Off") == "off";
    assert Fold("") == "";
    assert Fold("maybe") == "maybe";
  }

  /** A flag written as str(flag).lower() reads back as the same flag. */
  lemma GetBoolOfWrittenFlag(c: Config, key: string, flag: bool, default: bool)
    requires c.section.Some?
    ensures GetBool(SetValue(c, key, if flag then "true" else "false").value, key, default) == Success(flag)
  {
  }

  /** Missing options, and a missing section, always yield the fallback and never raise. */
  lemma MissingOptionFallsBack(c: Config, key: string, s: string, n: int, b: bool)
    requires Lookup(c, key).None?
    ensures GetStr(c, key, s) == s
    ensures GetInt(c, key, n) == Success(n)
    ensures GetBool(c, key, b) == Success(b)
  {
  }

  /** A stored value that is not an integer makes get_int raise instead of falling back. */
  lemma MalformedIntRaises(c: Config, key: string, default: int)
    requires Lookup(c, key).Some? && ParseInt(Lookup(c, key).value).None?
    ensures GetInt(c, key, default).Failure?
  {
  }

  /** The file load_config writes reads back as: window 7 to 22, Westminster
      chime, autostart on — the same window and chime the fallbacks give. */
  lemma DefaultsRead()
    ensures GetInt(LoadConfig(None), "StartHour", 7) == Success(7)
    ensures GetInt(LoadConfig(None), "EndHour", 22) == Success(22)
    ensures GetStr(LoadConfig(None), "chimetype", "westminster") == "westminster"
    ensures GetBool(LoadConfig(None), "AutoStart", false) == Success(true)
  {
    assert Fold("StartHour") == "starthour";
    assert Fold("EndHour") == "endhour";
    assert Fold("chimetype") == "chimetype";
    assert Fold("AutoStart") == "autostart";
    assert Fold("true") == "true";
    assert ParseInt("7") == Some(7);
    assert ParseInt("22") == Some(22) by {
      assert "22"[..1] == "2";
    }
  }
}

=== FILE: text.dfy ===
/** The text conversions the program relies on: Python's str() and int() for
    integers, the `{:02d}` format used for speech-clip names, and the ASCII
    lower-casing configparser applies to option names. */
module Text {
  import opened Wrappers

  predicate IsDigit(c: char) {
    '0' <= c <= '9'
  }

  predicate AllDigits(s: string) {
    forall i :: 0 <= i < |s| ==> IsDigit(s[i])
  }

  function DigitValue(c: char): (d: nat)
    requires IsDigit(c)
    ensures d < 10
  {
    c as int - '0' as int
  }

  function DigitChar(d: nat): (c: char)
    requires d < 10
    ensures IsDigit(c) && DigitValue(c) == d
  {
    ('0' as int + d) as char
  }

  /** The value of a string of decimal digits, most significant digit first. */
  function DigitsValue(s: string): nat
    requires AllDigits(s)
    decreases |s|
  {
    if |s| == 0 then 0 else 10 * DigitsValue(s[..|s| - 1]) + DigitValue(s[|s| - 1])
  }

  /** Python's str() of a non-negative int: decimal digits, no leading zero. */
  function NatToString(n: nat): (s: string)
    ensures 0 < |s| && AllDigits(s)
    ensures DigitsValue(s) == n
    ensures s[0] == '0' ==> n == 0
    ensures |s| == 1 <==> n < 10
    ensures n < 100 ==> |s| <= 2
    decreases n
  {
    if n < 10 then [DigitChar(n)]
    else
      var s := NatToString(n / 10) + [DigitChar(n % 10)];
      assert s[..|s| - 1] == NatToString(n / 10);
      s
  }

  /** Python's str() of an int. */
  function IntToString(n: int): string {
    if n < 0 then "-" + NatToString(-n) else NatToString(n)
  }

  /** Python's int() on a configuration value: an optional sign followed by
      one or more ASCII digits; anything else raises ValueError (None). */
  function ParseInt(s: string): Option<int> {
    if 0 < |s| && (s[0] == '-' || s[0] == '+') then
      var body := s[1..];
      if 0 < |body| && AllDigits(body) then
        Some(if s[0] == '-' then -(DigitsValue(body) as int) else DigitsValue(body))
      else None
    else if 0 < |s| && AllDigits(s) then Some(DigitsValue(s))
    else None
  }

  /** int() rejects the empty string, a bare sign, and text with a non-digit. */
  lemma ParseIntRejects(s: string)
    requires s == "" || s == "-" || s == "+" || (0 < |s| && !IsDigit(s[|s| - 1]))
    ensures ParseInt(s) == None
  {
  }

  /** Python's format(n, "02d"): at least two characters, zero-padded after the sign. */
  function Pad2(n: int): string {
    if n < 0 then "-" + NatToString(-n)
    else if n < 10 then "0" + NatToString(n)
    else NatToString(n)
  }

  /** str() then int() gives back the same integer. */
  lemma ParseIntOfIntToString(n: int)
    ensures ParseInt(IntToString(n)) == Some(n)
  {
  }

  /** A leading zero does not change the value of a digit string. */
  lemma {:induction false} LeadingZero(s: string)
    requires AllDigits(s)
    ensures AllDigits("0" + s) && DigitsValue("0" + s) == DigitsValue(s)
  {
    var t := "0" + s;
    assert AllDigits(t) by {
      forall i | 0 <= i < |t| ensures IsDigit(t[i]) {
        if 0 < i { assert t[i] == s[i - 1]; }
      }
    }
    if |s| != 0 {
      assert t[..|t| - 1] == "0" + s[..|s| - 1];
      assert t[|t| - 1] == s[|s| - 1];
      LeadingZero(s[..|s| - 1]);
    }
  }

  /** The zero-padded form is always at least two characters long and reads
      back as the same integer, so distinct integers never share a padding. */
  lemma ParseIntOfPad2(n: int)
    ensures 2 <= |Pad2(n)|
    ensures ParseInt(Pad2(n)) == Some(n)
  {
    if n < 0 {
      assert ("-" + NatToString(-n))[1..] == NatToString(-n);
    } else if n < 10 {
      LeadingZero(NatToString(n));
    }
  }

  /** For a clock hour the padding is exactly the tens digit then the units digit. */
  lemma Pad2OfClockHour(h: int)
    requires 0 <= h <= 23
    ensures Pad2(h) == [DigitChar(h / 10), DigitChar(h % 10)]
  {
  }

  function LowerChar(c: char): char {
    if 'A' <= c <= 'Z' then (c as int - 'A' as int + 'a' as int) as char else c
  }

  /** configparser's option-name transform (str.lower), on ASCII letters. */
  function Fold(s: string): (r: string)
    ensures |r| == |s|
    ensures forall i :: 0 <= i < |s| ==> r[i] == LowerChar(s[i])
  {
    seq(|s|, i requires 0 <= i < |s| => LowerChar(s[i]))
  }
}

=== FILE: tray.dfy ===
/** TrayApp: the application state and the commands that change it — start-up
    behind the single-instance lock, the chime-style menu actions, the test
    play action and the timer tick. Menus, icons and autostart are left out. */
module Tray {
  import opened Wrappers
  import opened Settings
  import opened Player
  import opened Guard
  import opened Scheduler
  import Text

  /** The resolved resource paths: the two chime files and the speech directory. */
  datatype Resources = Resources(westminsterFile: Path, normalFile: Path, speechDir: Path)

  /** The application's state: its configuration, the selected chime file,
      the player (holding its own copy of that file) and the scheduler state. */
  datatype App = App(config: Config, res: Resources, chimeFile: Path, player: Player, chimer: Chimer)

  /** What a command leaves behind: the new state and the mixer calls it made. */
  datatype Outcome = Outcome(app: App, trace: seq<Event>)

  datatype Startup = Running(app: App, segments: Segments) | AlreadyRunning(segments: Segments)

  /** update_chime_file: "normal" selects the normal chime; any other value,
      and a missing setting, selects Westminster. */
  function ChimeFileFor(c: Config, res: Resources): (r: Path)
    ensures Lookup(c, "chimetype") == Some("normal") ==> r == res.normalFile
    ensures Lookup(c, "chimetype") != Some("normal") ==> r == res.westminsterFile
  {
    if GetStr(c, "chimetype", "westminster") == "normal" then res.normalFile else res.westminsterFile
  }

  /** The player plays the selected chime file from the speech directory, and
      the selected file is the one the configuration names. */
  predicate Coherent(app: App) {
    && app.chimeFile == ChimeFileFor(app.config, app.res)
    && app.player == Player(app.chimeFile, app.res.speechDir)
  }

  /** TrayApp start-up: exit when the lock is held (or cannot be made);
      otherwise load the configuration, select the chime and start with
      last_chimed_hour = -1. */
  function Launch(segments: Segments, osFault: bool, file: Option<Config>, res: Resources): (r: Startup)
    ensures r.Running? <==> LockName !in segments && !osFault
    ensures r.Running? ==> Coherent(r.app) && r.app.chimer == Initial && LockName in r.segments
    ensures r.Running? ==> r.app.config == LoadConfig(file) && r.app.res == res
    ensures r.AlreadyRunning? ==> r.segments == segments
  {
    var claim := CheckSingleInstance(segments, LockName, osFault);
    if !claim.acquired then AlreadyRunning(claim.segments)
    else
      var c := LoadConfig(file);
      var f := ChimeFileFor(c, res);
      Running(App(c, res, f, Player(f, res.speechDir), Initial), claim.segments)
  }

  /** set_chime_type: write the setting, reselect the chime file and hand it to
      the player. Writing fails without a [Settings] section, and then nothing
      else happens. */
  function SetChimeType(app: App, chimeType: string): (r: Result<App, SettingsError>)
    ensures r.Failure? <==> app.config.section.None?
    ensures r.Success? ==> r.value.chimer == app.chimer && r.value.res == app.res
  {
    match SetValue(app.config, "chimetype", chimeType)
    case Failure(e) => Failure(e)
    case Success(c) =>
      var f := ChimeFileFor(c, app.res);
      Success(app.(config := c, chimeFile := f, player := app.player.(chimeFile := f)))
  }

  /** The test-play menu action: play the clips of the current hour, bypassing
      the scheduler. */
  function TestPlay(app: App, hour: int, existing: set<Path>): (r: Outcome)
    ensures r.app == app
    ensures r.trace == Play(app.player, Some(hour), existing)
  {
    Outcome(app, Play(app.player, Some(hour), existing))
  }

  /** check_hourly_chime: decide, play the hour's clips when the tick fires,
      and only then record the hour. */
  function OnTick(app: App, hour: int, minute: int, existing: set<Path>): (r: Result<Outcome, SettingsError>)
    ensures r.Success? ==> r.value.app.config == app.config && r.value.app.player == app.player
    ensures r.Success? && r.value.trace == [] ==> r.value.app == app
  {
    match Tick(app.chimer, app.config, hour, minute)
    case Failure(e) => Failure(e)
    case Success(d) =>
      if d.fire then Success(Outcome(app.(chimer := d.next), Play(app.player, Some(hour), existing)))
      else Success(Outcome(app, []))
  }

  /** Choosing a style never changes the chime window: it writes only
      `chimetype`, so `StartHour` and `EndHour` keep the values read at
      start-up for the life of the process. */
  lemma SetChimeTypeKeepsWindow(app: App, chimeType: string)
    requires app.config.section.Some?
    ensures ReadWindow(SetChimeType(app, chimeType).value.config) == ReadWindow(app.config)
  {
    assert Text.Fold("chimetype") != Text.Fold("StartHour") by { assert Text.Fold("StartHour")[0] == 's'; }
    assert Text.Fold("chimetype") != Text.Fold("EndHour") by { assert Text.Fold("EndHour")[0] == 'e'; }
  }

  /** Choosing a style leaves the player holding exactly the file that style
      selects: the normal chime for "normal", Westminster for anything else. */
  lemma SetChimeTypeSelects(app: App, chimeType: string)
    requires Coherent(app) && app.config.section.Some?
    ensures SetChimeType(app, chimeType).Success?
    ensures Coherent(SetChimeType(app, chimeType).value)
    ensures SetChimeType(app, chimeType).value.player.chimeFile
            == (if chimeType == "normal" then app.res.normalFile else app.res.westminsterFile)
  {
  }

  /** A first launch with no configuration file selects the Westminster chime. */
  lemma FirstLaunchIsWestminster(segments: Segments, res: Resources)
    requires LockName !in segments
    ensures Launch(segments, false, None, res).Running?
    ensures Launch(segments, false, None, res).app.player.chimeFile == res.westminsterFile
  {
  }

  /** The tick never changes the configuration or the player, so coherence is kept. */
  lemma OnTickKeepsCoherence(app: App, hour: int, minute: int, existing: set<Path>)
    requires Coherent(app)
    requires OnTick(app, hour, minute, existing).Success?
    ensures Coherent(OnTick(app, hour, minute, existing).value.app)
  {
  }

  /** A tick that fires is heard as the chime then the hour's announcement
      (those that exist), each once and in full; a tick that does not fire
      makes no mixer call and leaves the state alone. */
  lemma OnTickPlaysTheHour(m: Mixer, app: App, hour: int, minute: int, existing: set<Path>, w: Window)
    requires ReadWindow(app.config) == Success(w)
    ensures OnTick(app, hour, minute, existing).Success?
    ensures Decide(app.chimer, w, hour, minute).fire ==>
              Exec(m, OnTick(app, hour, minute, existing).value.trace).heard
                == Clips(app.player, Some(hour), existing)
              && OnTick(app, hour, minute, existing).value.app.chimer == Chimer(hour)
    ensures !Decide(app.chimer, w, hour, minute).fire ==>
              OnTick(app, hour, minute, existing).value == Outcome(app, [])
  {
    TickReadsWindow(app.chimer, app.config, hour, minute);
    PlayIsHeardAsClipList(m, app.player, Some(hour), existing);
  }

  /** A test play at any hour never suppresses the next real chime: a due tick
      of that hour inside the window still fires afterwards. */
  lemma TestPlayKeepsNextChime(app: App, hour: int, existing: set<Path>, w: Window)
    requires ReadWindow(app.config) == Success(w)
    requires hour != app.chimer.lastChimedHour && InWindow(w, hour)
    ensures TestPlay(app, hour, existing).app.chimer == app.chimer
    ensures OnTick(TestPlay(app, hour, existing).app, hour, 0, existing)
            == Success(Outcome(app.(chimer := Chimer(hour)), Play(app.player, Some(hour), existing)))
  {
  }
}

=== FILE: wrappers.dfy ===
/** Optional values and results with an error, used wherever the program either
    has nothing to return or raises an exception. */
module Wrappers {

  datatype Option<+T> = None | Some(value: T)

  datatype Result<+R, +E> = Success(value: R) | Failure(error: E)
}
